=== FILE: README.md ===
# Room card: tooltip placement and feature formatting

A Dafny model of the pure logic inside `room-card.js`, the Vue components of
an interactive campus room map. Hovering a room's shape on the floor plan
opens a tooltip holding a "room card": a photo, a description and a list of
feature icons. The model covers the following parts:

- **Tooltip placement** (`Tooltip`). The `tooltip` component computes its
  top-left corner from the hovered shape's bounding box and its own fixed
  650×325 size. Horizontally it moves one eighth of its width from the box's
  left edge. It moves rightward when the box is within that distance of the
  left edge, and leftward otherwise. Vertically it opens below the box when
  there is no room for its height plus 50 px above the box, and above the
  box otherwise.
- **Feature formatting** (`Features`, `BoardCodes`). The `formatFeature`
  table maps each feature name (`exclusive`, `capacity`, `projectors`,
  `boards`, `rearrangableFurniture`, `computers`, `outlets`) to a `show`
  predicate and a `content` renderer. `room-card-feature` dispatches through
  it by name. Content is modelled as an opaque icon token plus the text
  snippet. The `boards` rule counts the `W` and `B` characters of a code
  like `"WWB"` and writes "2 whiteboards and 1 blackboard are available".
- **Map manager** (`MapManager`). `map-manager` tracks the hovered room, two
  "pointer is here" flags and `show`. Its debounced `update` is modelled as a
  `Tick` event. The module also holds `currentEl` (`'room-' + name`) and
  `currentRoom`.
- **Room card values** (`RoomCard`). These are the description line and its
  visibility flag, the thumbnail preview and its visibility flag, and the
  feature list.
- **Support.** `Decimal` renders integers the way JavaScript prints them and
  reads digit strings back. `Text` tests prefixes and suffixes. `Results`
  holds `Option`/`Result`.

The main proved properties, and what each operation is checked against:
- The boards text is read back by a parser that accepts exactly the texts
  the rule writes, so each pair of counts has one text.
- The boards text, the capacity and computer texts, the `exclusive` text,
  element ids and description lines each have an inverse parser. The text
  is proved to parse back to the counts, the number, the group name, the
  room name or the details. For the capacity and computer texts this holds
  for numeric values and for digit strings. Any other string value is
  proved to be embedded unchanged.
- Integers are written as canonical numerals, and a canonical numeral is
  proved to be the only one that reads back as its value.
- The board counts are proved equal to the letters' multiplicities in the
  code.
- Tooltip placement is proved to keep geometric properties: on-screen
  placement, not covering the box vertically, and no clamping.
- The map manager's state is proved to keep an invariant under every event.
  It also matches characterisations stated over the event history.
- The feature list and the three yes/no rules are stated directly: the list
  holds each feature's own view in order, and a flag rule shows exactly the
  value `"Y"`.

Some behaviours of the code are worth stating plainly:
- `boards` adds the `" and "` joiner whenever there are blackboards, even
  with no whiteboards (`" and 2 blackboards are available"`).
- `boards` always ends with " are available", so a single whiteboard reads
  "1 whiteboard are available".
- The capacity text is "Room for N people".
- The tooltip's size is fixed in its data at 650×325, and placement always
  uses those numbers.

## Model

| member | source | states |
|---|---|---|
| Tooltip.Left | room-card.js:108-115 | the result is exactly width/8 away from the box's left edge. It moves rightward iff `el.left <= width/8` (inclusive), and leftward otherwise. In the leftward case the result is strictly positive |
| Tooltip.Top | room-card.js:116-123 | opens below the box (`el.top + el.height`) iff `el.top <= height + 50` (inclusive). Otherwise the tooltip's bottom edge meets the box's top, and its top is strictly greater than 50 |
| Tooltip.PlacementStaysOnScreen | room-card.js:108-123 | a box with non-negative left, top and height, and a tooltip of non-negative width, never give a negative tooltip coordinate |
| Tooltip.Place | room-card.js:124-129 | the style object's `left`/`top` pair. Its properties are stated by `Tooltip.PlacementStaysOnScreen`, `Tooltip.PlacementClearsBox`, `Tooltip.NoRightClamp` and `Tooltip.NoBottomClamp` |
| Tooltip.PlacementClearsBox | room-card.js:116-123 | the tooltip lies wholly below or wholly above the hovered box, never overlapping it vertically |
| Tooltip.NoRightClamp | room-card.js:108-115 | no right-edge clamping: moving a leftward-opening box right by d moves the tooltip right by d |
| Tooltip.NoBottomClamp | room-card.js:116-123 | no bottom-edge clamping: moving a downward-opening box down by d moves the tooltip down by d |
| Tooltip.BoundaryCases | room-card.js:89-123 | a box exactly width/8 from the left opens rightward. A box exactly height+50 from the top opens downward. The default 650×325 size places a box at (81.25, 375) at (162.5, 405) |
| Decimal.NatToString | room-card.js:207-208 | a count is written as a non-empty digit string without a leading zero |
| Decimal.ParseNatToString | room-card.js:207-208 | reading the written count back gives the count |
| Decimal.IntToString | room-card.js:178-181 | a number in a template literal is written with a leading `-` exactly when negative, and as a canonical numeral: no leading zero, and zero is "0" |
| Decimal.CanonicalIsIntToString | room-card.js:178-181 | every canonical numeral is exactly the text written for the integer it reads back as, so the written numeral is the only canonical one for its value |
| Decimal.NatToStringOfDigits | room-card.js:244-247 | a digit string with no leading zero is the numeral written for its own value |
| Decimal.ParseIntToString | room-card.js:244-247 | reading a written integer back gives the integer |
| Decimal.ParseDigits | room-card.js:241-243 | a digit string coerced to a number is positive iff it has a non-zero digit; the empty string is 0 |
| BoardCodes.CountOf | room-card.js:196-197 | a letter's match count never exceeds the code's length. Its exact value is stated by `BoardCodes.CountOfIsMultiplicity` |
| BoardCodes.CountOfIsMultiplicity | room-card.js:196-197 | the regular-expression match count equals the number of occurrences of the letter in the code |
| BoardCodes.CountOfPositive | room-card.js:196-199 | a letter's count is positive iff the letter occurs in the code |
| BoardCodes.Shows | room-card.js:195-200 | `boards.show` holds iff the code contains a `W` or a `B` |
| BoardCodes.PluralEndsInS | room-card.js:207-221 | a board noun ends in "s" iff its count is above one |
| BoardCodes.BoardNounsArePluralisable | room-card.js:208-216 | neither board noun already ends in "s", so the plural rule applies to both |
| BoardCodes.BoardsText | room-card.js:201-223 | the text built from the two counts. Its shape is stated by `BoardCodes.BoardsTextShape`, and `BoardCodes.ParseBoardsText` proves it determines both counts |
| BoardCodes.Snippet | room-card.js:201-223 | the text for a board code. `BoardCodes.SnippetCounts` proves it reports the code's `W` and `B` multiplicities, and `BoardCodes.SnippetIgnoresOrder` that only those matter |
| BoardCodes.BoardsTextShape | room-card.js:202-223 | the text always ends with " are available". It starts with a digit iff there are whiteboards (`BoardCodes.ParseBoardsText` gives the count itself). It starts with " and " iff there are blackboards but no whiteboards. It is " are available" alone iff there are no boards |
| BoardCodes.TextWithWhiteboards | room-card.js:207-213 | with whiteboards, the text begins with a digit |
| BoardCodes.TextWithBlackboardsOnly | room-card.js:215-221 | with blackboards and no whiteboards, the text begins with " and " |
| BoardCodes.WhiteClauseStartsWithDigit | room-card.js:207-213 | the whiteboard clause begins with its count |
| BoardCodes.ParseClauseOf | room-card.js:207-221 | a count clause reads back as its count and the text that follows |
| BoardCodes.ParseWhiteOf | room-card.js:207-213 | the optional whiteboard clause reads back as the whiteboard count |
| BoardCodes.ParseBlackOf | room-card.js:215-221 | the optional " and …" blackboard clause reads back as the blackboard count |
| BoardCodes.ClauseOfParse | room-card.js:208-220 | a clause the parser accepts is exactly the clause written for the count it returns, so counts with leading zeros are rejected |
| BoardCodes.BoardsTextOfParse | room-card.js:202-223 | any text the boards parser accepts is exactly the text written for the counts it returns. With `BoardCodes.ParseBoardsText`, texts and pairs of counts correspond one to one |
| BoardCodes.ParseBoardsText | room-card.js:202-223 | the boards text determines both counts: parsing it gives back exactly the counts it was built from |
| BoardCodes.SnippetCounts | room-card.js:201-223 | the text of a code reads back as the number of `W`s and the number of `B`s in the code |
| BoardCodes.SnippetIgnoresOrder | room-card.js:196-223 | two codes with the same letters in any order give the same text and the same visibility |
| BoardCodes.TwoWhiteOneBlackText | room-card.js:202-223 | two whiteboards and one blackboard give "2 whiteboards and 1 blackboard are available" |
| BoardCodes.NoWhiteTwoBlackText | room-card.js:215-223 | no whiteboards and two blackboards give " and 2 blackboards are available" |
| BoardCodes.SnippetTwoWhiteOneBlack | room-card.js:194-223 | "WWB" is shown, with text "2 whiteboards and 1 blackboard are available" |
| BoardCodes.SnippetBlackboardsOnly | room-card.js:215-223 | "BB" gives " and 2 blackboards are available": the joiner appears without a whiteboard clause |
| BoardCodes.SnippetNoBoards | room-card.js:195-223 | the empty code is hidden |
| Features.RuleStoredUnderName | room-card.js:158-260 | each of the seven rules is in the table under its own key |
| Features.TableHoldsExactlyTheRules | room-card.js:158-260 | a name is a key of the table iff it is the key of one of the seven rules |
| Features.Lookup | room-card.js:364-369 | looking up a name gives the rule with that name. A name no rule has fails with `UnknownFeature` naming it |
| Features.Render | room-card.js:178-181 | a string is embedded as it is. A number is embedded as a canonical numeral that reads back as the same number |
| Features.Show | room-card.js:158-260 | visibility for each rule: `exclusive` and `capacity` always; `projectors`, `rearrangableFurniture` and `outlets` iff the value is exactly `"Y"`; `boards` iff a `W` or `B` occurs; `computers` iff the number (or the digit string's number) is positive. It fails exactly for `boards` on a number and for `computers` on a non-digit string |
| Features.Content | room-card.js:158-260 | each rule draws its own icon. Only `boards` on a number fails |
| Features.FlagContentIgnoresValue | room-card.js:184-260 | the text of `projectors`, `rearrangableFurniture` and `outlets` does not depend on the value |
| Features.ExclusiveText | room-card.js:163-171 | the `exclusive` snippet. `Features.ExclusiveNamesGroup` proves what it names |
| Features.ExclusiveNamesGroup | room-card.js:163-172 | the `exclusive` text names a group iff the value is a non-empty string, and then names exactly that string. Otherwise it is the "anyone" text |
| Features.ReadNumberOf | room-card.js:178-181 | a number between a fixed lead-in and a fixed tail is read back as the embedded number |
| Features.CapacityStatesNumber | room-card.js:178-181 | a numeric capacity can be read back from "Room for N people", and N is written as the integer's canonical numeral |
| Features.CapacityText | room-card.js:178-181 | the capacity text is "Room for ", the rendered value, then " people" |
| Features.ComputersText | room-card.js:244-247 | the computers text is the rendered value followed by " computer(s) are available" |
| Features.ComputersStatesNumber | room-card.js:244-247 | a numeric computer count can be read back from "N computer(s) are available" |
| Features.StringValueEmbedded | room-card.js:178-181 | a string capacity or computer count is embedded unchanged between the rule's lead-in and tail |
| Features.ComputersStatesDigits | room-card.js:240-247 | for a non-empty digit string, `show` tests whether its number is positive, and the content text reads back as that same number |
| Decimal.ParseIntOfDigits | room-card.js:240-243 | a non-empty unsigned digit string reads back as its value |
| Features.BoardsContentCounts | room-card.js:194-228 | the boards content reports the `W` and `B` multiplicities of the code. `show` tests the same two counts |
| Features.ShownImpliesRenderable | room-card.js:158-260 | whenever a rule shows a value, its content does not fail |
| Features.FeatureShow | room-card.js:364-366 | it fails with `UnknownFeature` iff the name is not in the table. Otherwise it is the named rule's `show` result, or that rule's error tagged with the feature name |
| Features.FeatureContent | room-card.js:367-369 | it fails with `UnknownFeature` iff the name is not in the table. Otherwise it is the named rule's `content` result, or that rule's error tagged with the feature name |
| Features.FeatureView | room-card.js:358-371 | the list item appears iff `show` holds, and then carries `content`. A shown feature always renders. An unknown name is an error |
| Features.DispatchExamples | room-card.js:184-193 | `projectors` `"N"` is hidden and `"Y"` reads "Includes a projector". An unknown name such as "jacuzzi" fails in both `show` and `content` |
| RoomCard.DescriptionView | room-card.js:333-338 | the description appears iff the details are non-empty, and then carries exactly those details after "This room includes " |
| RoomCard.ThumbnailView | room-card.js:280-285 | a preview exists iff there is at least one thumbnail, and it is one of the thumbnails' sources |
| RoomCard.PreviewIsFirstImage | room-card.js:280-282 | the preview is the first image: appending images leaves it unchanged, and a prepended image becomes it |
| RoomCard.RenderFeatureList | room-card.js:342-356 | one view per feature, in order, each being that feature's own view |
| MapManager.Step | room-card.js:44-83 | the effect of one event: the `mouseover`/`mouseleave` listeners, the tooltip's `active`/`close`, and the debounced `update`. Each event changes only its own fields: only `update` changes `show`, only `mouseover` changes the room and box, only the room events change `isRoomActive`, and only the tooltip's events change `isTooltipActive`, and only while it is shown |
| MapManager.RunSnoc | room-card.js:44-60 | an event appended to a history acts on the state the history leads to |
| MapManager.StepKeepsConsistent | room-card.js:44-83 | every event keeps the invariant: shown ⇒ a room and box exist; pointer on tooltip ⇒ shown; room and box are set together |
| MapManager.RunConsistent | room-card.js:1-83 | every reachable state satisfies that invariant |
| MapManager.ShowAfterUpdate | room-card.js:53-60 | after `update` runs, `show` is true iff `isTooltipActive` or `isRoomActive` holds |
| MapManager.RoomActiveAfter | room-card.js:71-83 | `isRoomActive` holds iff some room was entered and no room has been left since |
| MapManager.CurrentRoomIsLastEntered | room-card.js:74-78 | the current room name and box are those of the last room entered |
| MapManager.HandOffToTooltip | room-card.js:44-60 | leaving the room and entering the tooltip before `update` runs keeps the tooltip shown, on the same room |
| MapManager.LeavingBothCloses | room-card.js:44-60 | leaving both the room and the tooltip hides the tooltip at the next `update` |
| MapManager.ElementIdNamesRoom | room-card.js:36-42 | the shape id `'room-' + name` reads back as the room name |
| MapManager.CurrentEl | room-card.js:36-42 | `currentEl` exists iff a non-empty room name is current, and it names that room |
| MapManager.CurrentRoom | room-card.js:29-35 | `currentRoom` is the record stored under the current element's room, and it is present whenever that room is a key of `rooms` |
| MapManager.ShownTooltipIsPlaced | room-card.js:14-20 | in every reachable state the tooltip has a position iff it is shown |

## Left out

- Vue component registration, templates, transitions, `v-html`, and the `$emit`/`v-on` wiring are not modelled. Events are inputs to `MapManager.Step`.
- DOM access is not modelled: attaching the listeners in `registerRooms`/`registerRoom` (including a missing `#room-…` element and `querySelector`), `getBoundingClientRect`, and `room-map`'s SVG loading (room-card.js:61-72, 141-155). The listeners' bodies are modelled by `MapManager.Step`, and the bounding box arrives as a field of the `RoomOver` event.
- The 50 ms timing of `_.debounce` is not modelled. Only the moment `update` runs is, as the `Tick` event.
- `room-card-header` (room-card.js:310-323) is left out because it is template only. It lays out the building, the name and an optional nickname, and computes nothing.
- The icon-font markup and the template literal's surrounding whitespace are left out. Content is an opaque `Icon` token and the text snippet.
- Features.Show: a non-digit string value for `computers` returns `NotCoercible`. JavaScript would convert it with `Number()`, which trims whitespace and accepts signs, decimals, hex and exponents. Only digit strings (and the empty string, as 0) are converted.
- Feature values are strings or integers. Fractional numbers, `null`/`undefined` and arrays are not modelled.
- Decimal.NatToString: JavaScript prints integers of 10^21 and above in exponent form. The model always prints plain digits.
- Tooltip.Place: the style object's `left + 'px'` and `top + 'px'` strings are not modelled. `Place` returns the two numbers, and turning a double into text such as "162.5px" is left out.
- Tooltip coordinates are `real` numbers, not double-precision floats. JavaScript rounds sums such as `el.top + el.height`, so `Tooltip.Top`'s equation `y + height == el.top` and the other placement equalities hold exactly only in the model.
- The code does not clamp the tooltip at the right or bottom edge of the viewport, and the model does not add clamping.

=== FILE: boards.dfy ===
/** The `boards` feature rule (room-card.js, `formatFeature.boards`). A
    room's boards are a code string such as "WWB": each 'W' is a whiteboard,
    each 'B' a blackboard, other characters are ignored. The rule shows the
    feature when there is at least one board and describes the two counts
    in words. */
module BoardCodes {
  import opened Results
  import opened Decimal
  import opened Text

  /** `(value.match(/c/g) || []).length`: how many times `c` occurs in `s`. */
  function CountOf(c: char, s: string): (n: nat)
    ensures n <= |s|
  {
    if s == [] then 0 else (if s[0] == c then 1 else 0) + CountOf(c, s[1..])
  }

  /** The count is the multiplicity of `c` in `s`, so it does not depend on
      where in the code the letters stand. */
  lemma {:induction false} CountOfIsMultiplicity(c: char, s: string)
    ensures CountOf(c, s) == multiset(s)[c]
  {
    if s != [] {
      CountOfIsMultiplicity(c, s[1..]);
      assert s == [s[0]] + s[1..];
      assert multiset(s) == multiset([s[0]]) + multiset(s[1..]);
    }
  }

  lemma CountOfPositive(c: char, s: string)
    ensures CountOf(c, s) > 0 <==> c in s
  {
    CountOfIsMultiplicity(c, s);
  }

  const Whiteboard: string := "whiteboard"
  const Blackboard: string := "blackboard"
  const Joiner: string := " and "
  const Tail: string := " are available"

  /** `show`: at least one whiteboard or at least one blackboard. */
  function Shows(v: string): (r: bool)
    ensures r <==> 'W' in v || 'B' in v
  {
    CountOfPositive('W', v);
    CountOfPositive('B', v);
    CountOf('W', v) > 0 || CountOf('B', v) > 0
  }

  /** The noun, with an "s" appended when there is more than one. */
  function Plural(noun: string, n: nat): string {
    if n > 1 then noun + "s" else noun
  }

  /** For a noun not already ending in "s" (both board nouns), the word ends
      in "s" exactly when the count is above one. */
  lemma PluralEndsInS(noun: string, n: nat)
    requires |noun| > 0 && noun[|noun| - 1] != 's'
    ensures var word := Plural(noun, n);
            |word| > 0 && (word[|word| - 1] == 's' <==> n > 1)
  {
  }

  lemma BoardNounsArePluralisable()
    ensures |Whiteboard| > 0 && Whiteboard[|Whiteboard| - 1] != 's'
    ensures |Blackboard| > 0 && Blackboard[|Blackboard| - 1] != 's'
  {
  }

  /** "<n> <noun>" or "<n> <noun>s". */
  function Clause(n: nat, noun: string): string {
    NatToString(n) + " " + Plural(noun, n)
  }

  function WhiteClause(w: nat): string {
    if w > 0 then Clause(w, Whiteboard) else ""
  }

  /** The blackboard clause always carries the " and " joiner, whether or not
      a whiteboard clause precedes it. */
  function BlackClause(b: nat): string {
    if b > 0 then Joiner + Clause(b, Blackboard) else ""
  }

  /** The snippet `content` builds from the two counts. */
  function BoardsText(w: nat, b: nat): string {
    WhiteClause(w) + BlackClause(b) + Tail
  }

  lemma WhiteClauseStartsWithDigit(w: nat)
    requires w > 0
    ensures |WhiteClause(w)| > 0 && IsDigit(WhiteClause(w)[0])
  {
    var d := NatToString(w);
    var rest := " " + Plural(Whiteboard, w);
    assert WhiteClause(w) == d + rest;
    assert (d + rest)[0] == d[0];
  }

  lemma TextWithWhiteboards(w: nat, b: nat)
    requires w > 0
    ensures IsDigit(BoardsText(w, b)[0])
  {
    WhiteClauseStartsWithDigit(w);
    var rest := BlackClause(b) + Tail;
    assert BoardsText(w, b) == WhiteClause(w) + rest;
    assert (WhiteClause(w) + rest)[0] == WhiteClause(w)[0];
  }

  lemma TextWithBlackboardsOnly(b: nat)
    requires b > 0
    ensures HasPrefix(BoardsText(0, b), Joiner)
  {
    var rest := Clause(b, Blackboard) + Tail;
    assert WhiteClause(0) == [];
    assert BlackClause(b) == Joiner + Clause(b, Blackboard);
    assert BoardsText(0, b) == Joiner + rest;
    StripPrefixOfConcat(Joiner, rest);
  }

  /** The shape of the snippet: it always ends in " are available"; it
      starts with the whiteboard count exactly when there are whiteboards;
      it starts with " and " exactly when there are blackboards but no
      whiteboards; and it is " are available" alone when there are no
      boards. */
  lemma BoardsTextShape(w: nat, b: nat)
    ensures var s := BoardsText(w, b);
            && HasSuffix(s, Tail)
            && (s == Tail <==> w == 0 && b == 0)
            && |s| > 0 && (IsDigit(s[0]) <==> w > 0)
            && (HasPrefix(s, Joiner) <==> w == 0 && b > 0)
  {
    var s := BoardsText(w, b);
    SuffixOfConcat(WhiteClause(w) + BlackClause(b), Tail);
    assert |s| == |WhiteClause(w)| + |BlackClause(b)| + |Tail|;
    if w > 0 {
      TextWithWhiteboards(w, b);
      assert Joiner[0] == ' ';
    } else if b > 0 {
      TextWithBlackboardsOnly(b);
    } else {
      assert s == Tail;
      assert Tail[2] != Joiner[2];
    }
  }

  /** The text of `boards.content` for a board code. */
  function Snippet(v: string): string {
    BoardsText(CountOf('W', v), CountOf('B', v))
  }

  /** Reads "<n> <noun>" or "<n> <noun>s" (agreeing with n, n > 0) off the
      front of `s`, returning n and what follows. The count must be written
      as JavaScript writes it, without leading zeros. */
  function ParseClause(s: string, noun: string): Option<(nat, string)> {
    var k := DigitPrefixLength(s);
    if k == 0 || s[0] == '0' then None
    else
      var n := ParseDigits(s[..k]);
      var rest :- StripPrefix(s[k..], " " + Plural(noun, n));
      if n > 0 then Some((n, rest)) else None
  }

  /** Reads the optional whiteboard clause at the front of the snippet's
      body: a count of 0 when the body does not start with a digit. */
  function ParseWhite(body: string): Option<(nat, string)> {
    if |body| > 0 && IsDigit(body[0]) then ParseClause(body, Whiteboard) else Some((0, body))
  }

  /** Reads the optional " and <n> blackboard(s)" clause that ends the body. */
  function ParseBlack(rest: string): Option<nat> {
    if rest == [] then Some(0)
    else
      var afterJoiner :- StripPrefix(rest, Joiner);
      var black :- ParseClause(afterJoiner, Blackboard);
      if black.1 == [] then Some(black.0) else None
  }

  /** Recovers the whiteboard and blackboard counts from a snippet. */
  function ParseBoards(s: string): Option<(nat, nat)> {
    if !HasSuffix(s, Tail) then None
    else
      var white :- ParseWhite(s[..|s| - |Tail|]);
      var black :- ParseBlack(white.1);
      Some((white.0, black))
  }

  lemma ParseClauseOf(n: nat, noun: string, t: string)
    requires n > 0
    ensures ParseClause(Clause(n, noun) + t, noun) == Some((n, t))
  {
    var d := NatToString(n);
    var after := " " + Plural(noun, n) + t;
    var s := Clause(n, noun) + t;
    assert s == d + after;
    DigitPrefixOfConcat(d, after);
    assert s[..|d|] == d;
    assert s[0] == d[0] != '0';
    ParseNatToString(n);
    assert s[|d|..] == after;
    StripPrefixOfConcat(" " + Plural(noun, n), t);
  }

  lemma ParseWhiteOf(w: nat, t: string)
    requires t == [] || t[0] == ' '
    ensures ParseWhite(WhiteClause(w) + t) == Some((w, t))
  {
    var body := WhiteClause(w) + t;
    if w > 0 {
      WhiteClauseStartsWithDigit(w);
      assert body[0] == WhiteClause(w)[0];
      assert body == Clause(w, Whiteboard) + t;
      ParseClauseOf(w, Whiteboard, t);
    } else {
      assert body == t;
    }
  }

  lemma ParseBlackOf(b: nat)
    ensures ParseBlack(BlackClause(b)) == Some(b)
  {
    if b > 0 {
      StripPrefixOfConcat(Joiner, Clause(b, Blackboard));
      ParseClauseOf(b, Blackboard, []);
      assert Clause(b, Blackboard) + [] == Clause(b, Blackboard);
    }
  }

  /** The snippet determines both counts: reading it back gives exactly the
      counts it was built from. */
  lemma ParseBoardsText(w: nat, b: nat)
    ensures ParseBoards(BoardsText(w, b)) == Some((w, b))
  {
    var body := WhiteClause(w) + BlackClause(b);
    var s := body + Tail;
    assert BoardsText(w, b) == s;
    SuffixOfConcat(body, Tail);
    assert s[..|s| - |Tail|] == body;
    assert BlackClause(b) == [] || BlackClause(b)[0] == ' ' by {
      if b > 0 {
        var rest := Clause(b, Blackboard);
        assert BlackClause(b) == Joiner + rest;
        assert (Joiner + rest)[0] == Joiner[0];
      }
    }
    ParseWhiteOf(w, BlackClause(b));
    ParseBlackOf(b);
  }

  /** Conversely, whatever `ParseClause` accepts is exactly the clause for
      the count it returns, followed by the rest. */
  lemma ClauseOfParse(s: string, noun: string)
    requires ParseClause(s, noun).Some?
    ensures var (n, rest) := ParseClause(s, noun).value;
            n > 0 && s == Clause(n, noun) + rest
  {
    var k := DigitPrefixLength(s);
    var d := s[..k];
    var n := ParseDigits(d);
    var rest := StripPrefix(s[k..], " " + Plural(noun, n)).value;
    assert d[0] == s[0];
    NatToStringOfDigits(d);
    assert s == d + s[k..];
  }

  lemma WhiteOfParse(body: string)
    requires ParseWhite(body).Some?
    ensures var (w, rest) := ParseWhite(body).value;
            body == WhiteClause(w) + rest
  {
    if |body| > 0 && IsDigit(body[0]) {
      ClauseOfParse(body, Whiteboard);
    }
  }

  lemma BlackOfParse(rest: string)
    ensures ParseBlack(rest).Some? ==> rest == BlackClause(ParseBlack(rest).value)
  {
    if rest != [] && ParseBlack(rest).Some? {
      var afterJoiner := StripPrefix(rest, Joiner).value;
      ClauseOfParse(afterJoiner, Blackboard);
      var b := ParseClause(afterJoiner, Blackboard).value.0;
      assert afterJoiner == Clause(b, Blackboard) + [];
    }
  }

  /** The two steps `ParseBoards` takes on a text it accepts. */
  lemma ParseBoardsSteps(s: string)
    requires ParseBoards(s).Some?
    ensures |Tail| <= |s| && s == s[..|s| - |Tail|] + Tail
    ensures var white := ParseWhite(s[..|s| - |Tail|]);
            && white.Some? && ParseBlack(white.value.1).Some?
            && ParseBoards(s) == Some((white.value.0, ParseBlack(white.value.1).value))
  {
    assert HasSuffix(s, Tail);
    assert s == s[..|s| - |Tail|] + s[|s| - |Tail|..];
  }

  /** The parser accepts nothing but snippets: a text it reads as (w, b) is
      exactly the text written for w whiteboards and b blackboards, so every
      pair of counts has one text and every text one pair. */
  lemma BoardsTextOfParse(s: string)
    requires ParseBoards(s).Some?
    ensures s == BoardsText(ParseBoards(s).value.0, ParseBoards(s).value.1)
  {
    ParseBoardsSteps(s);
    var body := s[..|s| - |Tail|];
    var white := ParseWhite(body).value;
    WhiteOfParse(body);
    BlackOfParse(white.1);
  }

  /** The snippet reports exactly how many 'W' and how many 'B' characters
      the code holds. */
  lemma SnippetCounts(v: string)
    ensures ParseBoards(Snippet(v)) == Some((multiset(v)['W'], multiset(v)['B']))
  {
    ParseBoardsText(CountOf('W', v), CountOf('B', v));
    CountOfIsMultiplicity('W', v);
    CountOfIsMultiplicity('B', v);
  }

  /** The order of the letters in the code does not matter. */
  lemma SnippetIgnoresOrder(v: string, u: string)
    requires multiset(v) == multiset(u)
    ensures Snippet(v) == Snippet(u)
    ensures Shows(v) == Shows(u)
  {
    CountOfIsMultiplicity('W', v);
    CountOfIsMultiplicity('W', u);
    CountOfIsMultiplicity('B', v);
    CountOfIsMultiplicity('B', u);
  }

  lemma TwoWhiteOneBlackText()
    ensures BoardsText(2, 1) == "2 whiteboards" + " and 1 blackboard" + Tail
  {
    assert NatToString(1) == "1" && NatToString(2) == "2";
    assert WhiteClause(2) == "2 whiteboards";
    assert BlackClause(1) == " and 1 blackboard";
  }

  lemma NoWhiteTwoBlackText()
    ensures BoardsText(0, 2) == " and 2 blackboards" + Tail
  {
    assert NatToString(2) == "2";
    assert WhiteClause(0) == "";
    assert BlackClause(2) == " and 2 blackboards";
  }

  /** "WWB" reads as two whiteboards and a blackboard. */
  lemma SnippetTwoWhiteOneBlack()
    ensures Shows("WWB")
    ensures Snippet("WWB") == "2 whiteboards" + " and 1 blackboard" + " are available"
  {
    assert CountOf('W', "WWB") == 2;
    assert CountOf('B', "WWB") == 1;
    TwoWhiteOneBlackText();
  }

  /** The joiner quirk: blackboards without whiteboards still get the
      leading " and ". */
  lemma SnippetBlackboardsOnly()
    ensures Snippet("BB") == " and 2 blackboards" + " are available"
  {
    assert CountOf('W', "BB") == 0;
    assert CountOf('B', "BB") == 2;
    NoWhiteTwoBlackText();
  }

  /** An empty code is not shown. */
  lemma SnippetNoBoards()
    ensures !Shows("") && Snippet("") == " are available"
  {
  }
}

=== FILE: decimal.dfy ===
/** Decimal text for JavaScript numbers that are integers.
    The feature rules embed numbers in their text (`${value}`,
    `numWhiteboards + " whiteboard"`) and the `computers` rule compares a
    value with 0, which coerces a string to a number. This module gives the
    rendering, the coercion of digit strings, and the parsers that invert
    the rendering. */
module Decimal {
  import opened Results

  predicate IsDigit(c: char) {
    '0' <= c <= '9'
  }

  predicate AllDigits(s: string) {
    forall i :: 0 <= i < |s| ==> IsDigit(s[i])
  }

  /** Some digit of `s` is not '0'. */
  predicate HasNonZeroDigit(s: string) {
    exists i :: 0 <= i < |s| && s[i] != '0'
  }

  function DigitChar(d: nat): (c: char)
    requires d < 10
    ensures IsDigit(c)
  {
    ('0' as int + d) as char
  }

  function DigitValue(c: char): (d: nat)
    requires IsDigit(c)
    ensures d < 10
    ensures DigitChar(d) == c
  {
    c as int - '0' as int
  }

  /** A numeral as JavaScript prints an integer: an optional minus sign,
      then digits with no leading zero; zero is "0" and is never signed. */
  predicate Canonical(s: string) {
    if |s| > 0 && s[0] == '-' then
      |s| > 1 && AllDigits(s[1..]) && s[1] != '0'
    else
      |s| > 0 && AllDigits(s) && (s[0] == '0' ==> |s| == 1)
  }

  /** The decimal numeral of `n`, as JavaScript prints a non-negative integer
      below 10^21: digits only, no leading zero. */
  function NatToString(n: nat): (s: string)
    ensures |s| > 0 && AllDigits(s)
    ensures s[0] == '0' ==> n == 0 && |s| == 1
    decreases n
  {
    if n < 10 then [DigitChar(n)] else NatToString(n / 10) + [DigitChar(n % 10)]
  }

  /** The value of a digit string; the empty string is 0, as JavaScript's
      `Number("")` is. */
  function ParseDigits(s: string): (n: nat)
    requires AllDigits(s)
    ensures n > 0 <==> HasNonZeroDigit(s)
  {
    if s == [] then 0
    else
      var init := s[..|s| - 1];
      var n := 10 * ParseDigits(init) + DigitValue(s[|s| - 1]);
      assert HasNonZeroDigit(init) ==> HasNonZeroDigit(s) by {
        if HasNonZeroDigit(init) {
          var i :| 0 <= i < |init| && init[i] != '0';
          assert s[i] == init[i];
        }
      }
      assert HasNonZeroDigit(s) ==> HasNonZeroDigit(init) || s[|s| - 1] != '0' by {
        if HasNonZeroDigit(s) {
          var i :| 0 <= i < |s| && s[i] != '0';
          if i < |s| - 1 {
            assert init[i] == s[i];
          }
        }
      }
      n
  }

  lemma {:induction false} ParseNatToString(n: nat)
    ensures ParseDigits(NatToString(n)) == n
    decreases n
  {
    var s := NatToString(n);
    if n < 10 {
      assert s[..|s| - 1] == [];
    } else {
      ParseNatToString(n / 10);
      assert s[..|s| - 1] == NatToString(n / 10);
      assert s[|s| - 1] == DigitChar(n % 10);
    }
  }

  /** How JavaScript prints an integer: a minus sign before the numeral of
      the magnitude when negative. */
  function IntToString(n: int): (s: string)
    ensures |s| > 0
    ensures s[0] == '-' <==> n < 0
    ensures n >= 0 ==> AllDigits(s)
    ensures Canonical(s)
  {
    if n < 0 then
      var d := NatToString(-n);
      assert ("-" + d)[1..] == d;
      "-" + d
    else NatToString(n)
  }

  /** Reads back an optionally signed, non-empty digit string. */
  function ParseInt(s: string): (r: Option<int>)
    ensures r.Some? && r.value < 0 ==> |s| > 0 && s[0] == '-'
  {
    if |s| > 0 && s[0] == '-' then
      if |s| > 1 && AllDigits(s[1..]) then Some(0 - ParseDigits(s[1..]) as int) else None
    else if |s| > 0 && AllDigits(s) then Some(ParseDigits(s))
    else None
  }

  lemma ParseIntToString(n: int)
    ensures ParseInt(IntToString(n)) == Some(n)
  {
    if n < 0 {
      var d := NatToString(-n);
      assert IntToString(n) == "-" + d;
      assert ("-" + d)[1..] == d;
      ParseNatToString(-n);
    } else {
      ParseNatToString(n);
    }
  }

  /** An unsigned digit string reads back as its value. */
  lemma ParseIntOfDigits(s: string)
    requires |s| > 0 && AllDigits(s)
    ensures ParseInt(s) == Some(ParseDigits(s) as int)
  {
    assert s[0] != '-';
  }

  /** A digit string with no leading zero is the numeral of its own value. */
  lemma {:induction false} NatToStringOfDigits(d: string)
    requires |d| > 0 && AllDigits(d) && (d[0] == '0' ==> |d| == 1)
    ensures NatToString(ParseDigits(d)) == d
    decreases |d|
  {
    var init := d[..|d| - 1];
    var v := DigitValue(d[|d| - 1]);
    if |d| > 1 {
      assert init[0] == d[0];
      assert HasNonZeroDigit(init);
      NatToStringOfDigits(init);
      var n := ParseDigits(d);
      assert n == 10 * ParseDigits(init) + v;
      assert n / 10 == ParseDigits(init) && n % 10 == v;
      assert d == init + [d[|d| - 1]];
    } else {
      assert d == [d[0]];
    }
  }

  /** Only one canonical numeral reads back as a given integer: it is
      exactly the one `IntToString` writes. */
  lemma CanonicalIsIntToString(s: string)
    requires Canonical(s)
    ensures ParseInt(s).Some?
    ensures IntToString(ParseInt(s).value) == s
  {
    if s[0] == '-' {
      var d := s[1..];
      NatToStringOfDigits(d);
      assert HasNonZeroDigit(d) by { assert d[0] != '0'; }
      assert s == "-" + d;
    } else {
      NatToStringOfDigits(s);
    }
  }

  /** Length of the longest prefix of `s` made of digits. */
  function DigitPrefixLength(s: string): (k: nat)
    ensures k <= |s|
    ensures AllDigits(s[..k])
    ensures k < |s| ==> !IsDigit(s[k])
  {
    if |s| == 0 || !IsDigit(s[0]) then 0
    else
      var k := 1 + DigitPrefixLength(s[1..]);
      assert s[..k] == [s[0]] + s[1..][..k - 1];
      k
  }

  /** A digit string followed by a non-digit (or nothing) is read up to the
      non-digit and no further. */
  lemma {:induction false} DigitPrefixOfConcat(d: string, u: string)
    requires AllDigits(d)
    requires |u| == 0 || !IsDigit(u[0])
    ensures DigitPrefixLength(d + u) == |d|
  {
    if d != [] {
      assert (d + u)[1..] == d[1..] + u;
      DigitPrefixOfConcat(d[1..], u);
    } else {
      assert d + u == u;
    }
  }
}

=== FILE: features.dfy ===
/** The `formatFeature` table and the `room-card-feature` component that
    dispatches through it (room-card.js). Each of a room's features is a
    name and a raw value; the table maps the name to a rule that decides
    whether the feature is shown and produces its icon and text. The icon
    is an opaque token rather than icon-font markup. */
module Features {
  import opened Results
  import opened Decimal
  import opened Text
  import BoardCodes

  /** A raw feature value: the data mixes strings ("Y", "WWB", a group
      name) and numbers (a capacity, a computer count). */
  datatype Value = Str(s: string) | Num(n: int)

  datatype Feature = Feature(name: string, value: Value)

  /** One constructor per entry of the table. */
  datatype Rule =
    | Exclusive
    | Capacity
    | Projectors
    | Boards
    | RearrangableFurniture
    | Computers
    | Outlets

  datatype Icon = GraduationCap | Users | Video | Magic | Couch | Desktop | Plug

  /** What the feature's list item shows: an icon and a text snippet. */
  datatype Display = Display(icon: Icon, text: string)

  /** How a rule fails on a value of the wrong kind. */
  datatype RuleError =
    | NotAString        // `value.match` on a number throws a TypeError
    | NotCoercible(s: string)  // a string the model does not convert to a number

  datatype FeatureError =
    | UnknownFeature(name: string)
    | RuleFailed(name: string, cause: RuleError)

  /** The key each rule is stored under. */
  function Name(rule: Rule): string {
    match rule
    case Exclusive => "exclusive"
    case Capacity => "capacity"
    case Projectors => "projectors"
    case Boards => "boards"
    case RearrangableFurniture => "rearrangableFurniture"
    case Computers => "computers"
    case Outlets => "outlets"
  }

  const Rules: map<string, Rule> := map[
    "exclusive" := Exclusive,
    "capacity" := Capacity,
    "projectors" := Projectors,
    "boards" := Boards,
    "rearrangableFurniture" := RearrangableFurniture,
    "computers" := Computers,
    "outlets" := Outlets
  ]

  /** Every rule is in the table under its own name. */
  lemma RuleStoredUnderName(rule: Rule)
    ensures Name(rule) in Rules && Rules[Name(rule)] == rule
  {
  }

  /** The table holds exactly the seven rules, each under its own name. */
  lemma TableHoldsExactlyTheRules(name: string)
    ensures name in Rules <==> exists rule: Rule :: Name(rule) == name
    ensures name in Rules ==> Name(Rules[name]) == name
  {
    if exists rule: Rule :: Name(rule) == name {
      var rule: Rule :| Name(rule) == name;
      RuleStoredUnderName(rule);
    }
    if name in Rules {
      var rule := Rules[name];
      assert rule in {Exclusive, Capacity, Projectors, Boards, RearrangableFurniture, Computers, Outlets};
      RuleStoredUnderName(rule);
      assert Name(rule) == name by {
        if name == "exclusive" {
        } else if name == "capacity" {
        } else if name == "projectors" {
        } else if name == "boards" {
        } else if name == "rearrangableFurniture" {
        } else if name == "computers" {
        } else {
          assert name == "outlets";
        }
      }
    }
  }

  /** `formatFeature[name]`: a name outside the table has no rule, and
      calling `show` or `content` on the missing entry throws. */
  function Lookup(name: string): (r: Result<Rule, FeatureError>)
    ensures r.Ok? ==> Name(r.value) == name
    ensures r.Err? ==> r.error == UnknownFeature(name) && forall rule: Rule :: Name(rule) != name
  {
    TableHoldsExactlyTheRules(name);
    if name in Rules then Ok(Rules[name]) else Err(UnknownFeature(name))
  }

  /** `${value}`: a string as it is, a number in decimal. */
  function Render(v: Value): (t: string)
    ensures v.Num? ==> ParseInt(t) == Some(v.n) && Canonical(t)
    ensures v.Str? ==> t == v.s
  {
    match v
    case Str(s) => s
    case Num(n) => ParseIntToString(n); IntToString(n)
  }

  /** `value === 'Y'`: only the one-character string "Y" is a yes; a number never is. */
  predicate IsYes(v: Value) {
    v == Str("Y")
  }

  /** The rule's `show`. `boards` needs a string; `computers` compares the
      value with 0, converting a string of digits to its number. */
  function Show(rule: Rule, v: Value): (r: Result<bool, RuleError>)
    ensures r.Err? <==> (rule == Boards && v.Num?) || (rule == Computers && v.Str? && !AllDigits(v.s))
    ensures r.Ok? ==> (r.value <==>
      match rule
      case Exclusive => true
      case Capacity => true
      case Projectors => v == Str("Y")
      case Boards => 'W' in v.s || 'B' in v.s
      case RearrangableFurniture => v == Str("Y")
      case Computers => if v.Num? then v.n > 0 else HasNonZeroDigit(v.s)
      case Outlets => v == Str("Y"))
  {
    match rule
    case Exclusive => Ok(true)
    case Capacity => Ok(true)
    case Projectors => Ok(IsYes(v))
    case Boards =>
      if v.Str? then Ok(BoardCodes.Shows(v.s)) else Err(NotAString)
    case RearrangableFurniture => Ok(IsYes(v))
    case Computers =>
      (match v
       case Num(n) => Ok(n > 0)
       case Str(s) => if AllDigits(s) then Ok(ParseDigits(s) > 0) else Err(NotCoercible(s)))
    case Outlets => Ok(IsYes(v))
  }

  /** The icon each rule draws. */
  function IconOf(rule: Rule): Icon {
    match rule
    case Exclusive => GraduationCap
    case Capacity => Users
    case Projectors => Video
    case Boards => Magic
    case RearrangableFurniture => Couch
    case Computers => Desktop
    case Outlets => Plug
  }

  const AnyoneText: string := "Anyone can use this room"
  const UsedByPrefix: string := "Typically used by "
  const CapacityPrefix: string := "Room for "
  const CapacitySuffix: string := " people"
  const ComputersSuffix: string := " computer(s) are available"

  /** The `exclusive` snippet. A number has no `length`, so it counts as
      empty, as the empty string does. */
  function ExclusiveText(v: Value): string {
    if v.Str? && |v.s| > 0 then UsedByPrefix + v.s else AnyoneText
  }

  /** The rule's `content`. Only `boards` can fail, on a number. */
  function Content(rule: Rule, v: Value): (r: Result<Display, RuleError>)
    ensures r.Err? <==> rule == Boards && v.Num?
    ensures r.Ok? ==> r.value.icon == IconOf(rule)
  {
    match rule
    case Exclusive => Ok(Display(GraduationCap, ExclusiveText(v)))
    case Capacity => Ok(Display(Users, CapacityPrefix + Render(v) + CapacitySuffix))
    case Projectors => Ok(Display(Video, "Includes a projector"))
    case Boards =>
      if v.Str? then Ok(Display(Magic, BoardCodes.Snippet(v.s))) else Err(NotAString)
    case RearrangableFurniture => Ok(Display(Couch, "Furniture is rearrangable"))
    case Computers => Ok(Display(Desktop, Render(v) + ComputersSuffix))
    case Outlets => Ok(Display(Plug, "Includes outlets"))
  }

  /** The flag rules' text does not depend on the value. */
  lemma FlagContentIgnoresValue(rule: Rule, v: Value, u: Value)
    requires rule == Projectors || rule == RearrangableFurniture || rule == Outlets
    ensures Content(rule, v) == Content(rule, u)
  {
  }

  /** Whose room it is, read back from an `exclusive` snippet. */
  function UsedBy(text: string): Option<string> {
    StripPrefix(text, UsedByPrefix)
  }

  /** The `exclusive` snippet names the group exactly when the value is a
      non-empty string, and then names that string; otherwise it is the
      "anyone" text. */
  lemma ExclusiveNamesGroup(v: Value)
    ensures Content(Exclusive, v).Ok?
    ensures UsedBy(Content(Exclusive, v).value.text)
         == if v.Str? && |v.s| > 0 then Some(v.s) else None
    ensures !(v.Str? && |v.s| > 0) ==> Content(Exclusive, v).value.text == AnyoneText
  {
    if v.Str? && |v.s| > 0 {
      StripPrefixOfConcat(UsedByPrefix, v.s);
    } else {
      assert AnyoneText[0] != UsedByPrefix[0];
    }
  }

  /** The number between a known prefix and a known suffix. */
  function ReadNumber(text: string, prefix: string, suffix: string): Option<int> {
    var rest :- StripPrefix(text, prefix);
    if HasSuffix(rest, suffix) then ParseInt(rest[..|rest| - |suffix|]) else None
  }

  lemma ReadNumberOf(prefix: string, middle: string, suffix: string)
    ensures ReadNumber(prefix + middle + suffix, prefix, suffix) == ParseInt(middle)
  {
    StripPrefixOfConcat(prefix, middle + suffix);
    assert prefix + middle + suffix == prefix + (middle + suffix);
    SuffixOfConcat(middle, suffix);
    assert (middle + suffix)[..|middle + suffix| - |suffix|] == middle;
  }

  /** A numeric capacity is stated in the text and can be read back. */
  lemma CapacityStatesNumber(n: int)
    ensures Content(Capacity, Num(n)).Ok?
    ensures ReadNumber(Content(Capacity, Num(n)).value.text, CapacityPrefix, CapacitySuffix) == Some(n)
    ensures StripPrefix(Content(Capacity, Num(n)).value.text, CapacityPrefix)
         == Some(IntToString(n) + CapacitySuffix)
  {
    CapacityText(Num(n));
    ReadNumberOf(CapacityPrefix, Render(Num(n)), CapacitySuffix);
    StripLeadIn(CapacityPrefix, IntToString(n), CapacitySuffix);
  }

  lemma StripLeadIn(prefix: string, middle: string, suffix: string)
    ensures StripPrefix(prefix + middle + suffix, prefix) == Some(middle + suffix)
  {
    StripPrefixOfConcat(prefix, middle + suffix);
    assert prefix + middle + suffix == prefix + (middle + suffix);
  }

  /** The capacity text is the rendered value between the lead-in and the
      tail. */
  lemma CapacityText(v: Value)
    ensures Content(Capacity, v).Ok?
    ensures Content(Capacity, v).value.text == CapacityPrefix + Render(v) + CapacitySuffix
  {
  }

  /** So is a numeric computer count. */
  lemma ComputersStatesNumber(n: int)
    ensures Content(Computers, Num(n)).Ok?
    ensures ReadNumber(Content(Computers, Num(n)).value.text, "", ComputersSuffix) == Some(n)
  {
    ReadNumberOf("", Render(Num(n)), ComputersSuffix);
    assert "" + Render(Num(n)) + ComputersSuffix == Render(Num(n)) + ComputersSuffix;
  }

  /** A string capacity or computer count is embedded as it is: the text
      is the lead-in, the string and the tail, with nothing dropped. */
  lemma StringValueEmbedded(s: string)
    ensures Content(Capacity, Str(s)).Ok? && Content(Computers, Str(s)).Ok?
    ensures StripPrefix(Content(Capacity, Str(s)).value.text, CapacityPrefix)
         == Some(s + CapacitySuffix)
    ensures var t := Content(Computers, Str(s)).value.text;
            HasSuffix(t, ComputersSuffix) && t[..|t| - |ComputersSuffix|] == s
  {
    StripPrefixOfConcat(CapacityPrefix, s + CapacitySuffix);
    assert CapacityPrefix + s + CapacitySuffix == CapacityPrefix + (s + CapacitySuffix);
    SuffixOfConcat(s, ComputersSuffix);
    assert (s + ComputersSuffix)[..|s + ComputersSuffix| - |ComputersSuffix|] == s;
  }

  /** For a non-empty digit string, the computers text states the number
      that `show` compares with 0. */
  lemma ComputersStatesDigits(s: string)
    requires |s| > 0 && AllDigits(s)
    ensures Show(Computers, Str(s)) == Ok(ParseDigits(s) > 0)
    ensures Content(Computers, Str(s)).Ok?
    ensures ReadNumber(Content(Computers, Str(s)).value.text, "", ComputersSuffix)
         == Some(ParseDigits(s) as int)
  {
    ComputersText(Str(s));
    ReadNumberNoPrefix(s, ComputersSuffix);
    ParseIntOfDigits(s);
  }

  /** The computers text is the rendered value followed by the tail. */
  lemma ComputersText(v: Value)
    ensures Content(Computers, v).Ok?
    ensures Content(Computers, v).value.text == Render(v) + ComputersSuffix
  {
  }

  lemma ReadNumberNoPrefix(middle: string, suffix: string)
    ensures ReadNumber(middle + suffix, "", suffix) == ParseInt(middle)
  {
    ReadNumberOf("", middle, suffix);
    assert "" + middle + suffix == middle + suffix;
  }

  /** The boards text reports exactly the number of 'W' and of 'B'
      characters in the code, the same counts `show` tests. */
  lemma BoardsContentCounts(code: string)
    ensures Content(Boards, Str(code)).Ok?
    ensures BoardCodes.ParseBoards(Content(Boards, Str(code)).value.text)
         == Some((multiset(code)['W'], multiset(code)['B']))
    ensures Show(Boards, Str(code)) == Ok(multiset(code)['W'] > 0 || multiset(code)['B'] > 0)
  {
    BoardCodes.SnippetCounts(code);
    BoardCodes.CountOfIsMultiplicity('W', code);
    BoardCodes.CountOfIsMultiplicity('B', code);
    BoardCodes.CountOfPositive('W', code);
    BoardCodes.CountOfPositive('B', code);
  }

  /** A rule that shows a value can also render it. */
  lemma ShownImpliesRenderable(rule: Rule, v: Value)
    requires Show(rule, v) == Ok(true)
    ensures Content(rule, v).Ok?
  {
  }

  /** The component's `show`: look the name up, then apply the rule. */
  function FeatureShow(f: Feature): (r: Result<bool, FeatureError>)
    ensures r == Err(UnknownFeature(f.name)) <==> f.name !in Rules
    ensures r.Ok? ==> f.name in Rules && Show(Rules[f.name], f.value) == Ok(r.value)
    ensures f.name in Rules && Show(Rules[f.name], f.value).Ok?
            ==> r == Ok(Show(Rules[f.name], f.value).value)
    ensures f.name in Rules && Show(Rules[f.name], f.value).Err?
            ==> r == Err(RuleFailed(f.name, Show(Rules[f.name], f.value).error))
  {
    var rule :- Lookup(f.name);
    match Show(rule, f.value)
    case Ok(b) => Ok(b)
    case Err(e) => Err(RuleFailed(f.name, e))
  }

  /** The component's `content`: look the name up, then apply the rule. */
  function FeatureContent(f: Feature): (r: Result<Display, FeatureError>)
    ensures r == Err(UnknownFeature(f.name)) <==> f.name !in Rules
    ensures r.Ok? ==> f.name in Rules && Content(Rules[f.name], f.value) == Ok(r.value)
    ensures f.name in Rules && Content(Rules[f.name], f.value).Ok?
            ==> r == Ok(Content(Rules[f.name], f.value).value)
    ensures f.name in Rules && Content(Rules[f.name], f.value).Err?
            ==> r == Err(RuleFailed(f.name, Content(Rules[f.name], f.value).error))
  {
    var rule :- Lookup(f.name);
    match Content(rule, f.value)
    case Ok(d) => Ok(d)
    case Err(e) => Err(RuleFailed(f.name, e))
  }

  /** What `<div v-if="show" v-html="content">` puts on the page: nothing
      when the feature is hidden, its display when shown (`content` is only
      evaluated then), or the error either step throws. */
  function FeatureView(f: Feature): (r: Result<Option<Display>, FeatureError>)
    ensures r.Ok? <==> FeatureShow(f).Ok?
    ensures r.Ok? ==> (r.value.Some? <==> FeatureShow(f).value)
    ensures r.Ok? && r.value.Some? ==> FeatureContent(f) == Ok(r.value.value)
    ensures FeatureShow(f) == Ok(true) ==> FeatureContent(f).Ok?
    ensures f.name !in Rules ==> r == Err(UnknownFeature(f.name))
  {
    match FeatureShow(f)
    case Err(e) => Err(e)
    case Ok(shown) =>
      if shown then
        ShownImpliesRenderable(Rules[f.name], f.value);
        match FeatureContent(f)
        case Ok(d) => Ok(Some(d))
        case Err(e) => Err(e)
      else Ok(None)
  }

  /** A projector flag, a missing projector, and an unknown feature. */
  lemma DispatchExamples()
    ensures FeatureView(Feature("projectors", Str("N"))) == Ok(None)
    ensures FeatureView(Feature("projectors", Str("Y"))) == Ok(Some(Display(Video, "Includes a projector")))
    ensures FeatureShow(Feature("jacuzzi", Str("Y"))) == Err(UnknownFeature("jacuzzi"))
    ensures FeatureContent(Feature("jacuzzi", Str("Y"))) == Err(UnknownFeature("jacuzzi"))
  {
  }
}

=== FILE: map_manager.dfy ===
/** The `map-manager` component (room-card.js): which room is current,
    whether the tooltip is shown, and where. Pointer events over the room
    shapes and over the tooltip set two flags; a debounced `update` later
    copies "either flag is set" into `show`. The debounce is modelled as a
    separate `Tick` event: the moment the quiet period ends and `update`
    runs. Its 50 ms timing is not modelled, only the order of events. */
module MapManager {
  import opened Results
  import opened Text
  import Tooltip
  import RoomCard

  datatype Event =
    | RoomOver(room: string, box: Tooltip.BoundingBox)  // `mouseover` on a room's shape
    | RoomLeave                                         // `mouseleave` on a room's shape
    | TooltipOver                                       // the tooltip emits `active`
    | TooltipLeave                                      // the tooltip emits `close`
    | Tick                                              // the debounced `update` runs

  /** The component's data. `None` stands for the initial `false`. */
  datatype Manager = Manager(
    currentRoomName: Option<string>,
    isRoomActive: bool,
    isTooltipActive: bool,
    box: Option<Tooltip.BoundingBox>,
    show: bool)

  const Initial: Manager := Manager(None, false, false, None, false)

  /** What `update` assigns to `show`. */
  function Visible(isTooltipActive: bool, isRoomActive: bool): bool {
    isTooltipActive || isRoomActive
  }

  /** The effect of one event. The tooltip is only in the page while `show`
      holds (`v-if="show"`), so it can emit nothing otherwise. Each event
      touches only its own fields: only `update` changes `show`, only a
      `mouseover` changes the room and its box, only the tooltip's events
      change `isTooltipActive`, and the tooltip cannot become active while
      hidden. */
  function Step(m: Manager, e: Event): (r: Manager)
    ensures r.show != m.show ==> e.Tick?
    ensures r.currentRoomName != m.currentRoomName || r.box != m.box ==> e.RoomOver?
    ensures r.isRoomActive != m.isRoomActive ==> e.RoomOver? || e.RoomLeave?
    ensures r.isTooltipActive != m.isTooltipActive ==> m.show && (e.TooltipOver? || e.TooltipLeave?)
  {
    match e
    case RoomOver(room, box) =>
      m.(currentRoomName := Some(room), isRoomActive := true, box := Some(box))
    case RoomLeave => m.(isRoomActive := false)
    case TooltipOver => if m.show then m.(isTooltipActive := true) else m
    case TooltipLeave => if m.show then m.(isTooltipActive := false) else m
    case Tick => m.(show := Visible(m.isTooltipActive, m.isRoomActive))
  }

  /** The state after a sequence of events from the initial state. */
  function Run(events: seq<Event>): Manager
    decreases |events|
  {
    if events == [] then Initial
    else Step(Run(events[..|events| - 1]), events[|events| - 1])
  }

  lemma RunSnoc(events: seq<Event>, e: Event)
    ensures Run(events + [e]) == Step(Run(events), e)
  {
    assert (events + [e])[..|events + [e]| - 1] == events;
  }

  /** What every reachable state satisfies: the tooltip is shown only with
      a room and a box to show; the pointer can only be on the tooltip while
      it is shown; room name and box are set together. */
  predicate Consistent(m: Manager) {
    && ((m.show || m.isRoomActive) ==> m.box.Some? && m.currentRoomName.Some?)
    && (m.isTooltipActive ==> m.show)
    && (m.box.Some? <==> m.currentRoomName.Some?)
  }

  lemma StepKeepsConsistent(m: Manager, e: Event)
    requires Consistent(m)
    ensures Consistent(Step(m, e))
  {
  }

  lemma {:induction false} RunConsistent(events: seq<Event>)
    ensures Consistent(Run(events))
    decreases |events|
  {
    if events != [] {
      RunConsistent(events[..|events| - 1]);
      StepKeepsConsistent(Run(events[..|events| - 1]), events[|events| - 1]);
    }
  }

  /** Once `update` has run, `show` is exactly "the pointer is on the
      tooltip or on a room". */
  lemma ShowAfterUpdate(events: seq<Event>)
    ensures Run(events + [Tick]).show
        == (Run(events).isTooltipActive || Run(events).isRoomActive)
  {
    RunSnoc(events, Tick);
  }

  /** Some room was entered and no room has been left since. */
  predicate EnteredNotLeft(events: seq<Event>) {
    exists i :: 0 <= i < |events| && events[i].RoomOver? && NoLeaveAfter(events, i)
  }

  predicate NoLeaveAfter(events: seq<Event>, i: nat) {
    forall j :: i < j < |events| ==> !events[j].RoomLeave?
  }

  /** The pointer is on a room exactly when some room was entered and no
      room has been left since. */
  lemma {:induction false} RoomActiveAfter(events: seq<Event>)
    ensures Run(events).isRoomActive <==> EnteredNotLeft(events)
    decreases |events|
  {
    if events != [] {
      var init := events[..|events| - 1];
      var last := events[|events| - 1];
      RoomActiveAfter(init);
      if last.RoomOver? {
        assert events[|events| - 1].RoomOver?;
      } else if last.RoomLeave? {
        forall i | 0 <= i < |events| && events[i].RoomOver?
          ensures !NoLeaveAfter(events, i)
        {
          assert i < |events| - 1;
        }
      } else {
        if Run(events).isRoomActive {
          var i :| 0 <= i < |init| && init[i].RoomOver? && NoLeaveAfter(init, i);
          assert events[i] == init[i];
          forall j | i < j < |events|
            ensures !events[j].RoomLeave?
          {
            if j < |init| {
              assert events[j] == init[j];
            }
          }
          assert NoLeaveAfter(events, i);
        } else {
          forall i | 0 <= i < |events| && events[i].RoomOver?
            ensures !NoLeaveAfter(events, i)
          {
            assert i < |init|;
            assert init[i] == events[i];
            assert !NoLeaveAfter(init, i);
            var j :| i < j < |init| && init[j].RoomLeave?;
            assert events[j] == init[j];
          }
        }
      }
    }
  }

  /** The current room and its box are those of the last room entered. */
  lemma {:induction false} CurrentRoomIsLastEntered(events: seq<Event>, i: nat)
    requires i < |events| && events[i].RoomOver?
    requires forall j :: i < j < |events| ==> !events[j].RoomOver?
    ensures Run(events).currentRoomName == Some(events[i].room)
    ensures Run(events).box == Some(events[i].box)
    decreases |events|
  {
    if i < |events| - 1 {
      var init := events[..|events| - 1];
      assert init[i] == events[i];
      forall j | i < j < |init|
        ensures !init[j].RoomOver?
      {
        assert init[j] == events[j];
      }
      CurrentRoomIsLastEntered(init, i);
    }
  }

  /** Moving the pointer from the room onto the tooltip before `update`
      runs keeps the tooltip open, on the same room: this is what the
      debounce is for. */
  lemma HandOffToTooltip(events: seq<Event>)
    requires Run(events).show
    ensures Run(events + [RoomLeave, TooltipOver, Tick]).show
    ensures Run(events + [RoomLeave, TooltipOver, Tick]).currentRoomName == Run(events).currentRoomName
  {
    RunSnoc(events, RoomLeave);
    RunSnoc(events + [RoomLeave], TooltipOver);
    RunSnoc(events + [RoomLeave, TooltipOver], Tick);
    assert events + [RoomLeave] + [TooltipOver] == events + [RoomLeave, TooltipOver];
    assert events + [RoomLeave, TooltipOver] + [Tick] == events + [RoomLeave, TooltipOver, Tick];
  }

  /** Leaving both the room and the tooltip closes the tooltip at the next
      `update`, whatever happened before. */
  lemma LeavingBothCloses(events: seq<Event>)
    ensures !Run(events + [RoomLeave, TooltipLeave, Tick]).show
  {
    RunConsistent(events);
    RunSnoc(events, RoomLeave);
    RunSnoc(events + [RoomLeave], TooltipLeave);
    RunSnoc(events + [RoomLeave, TooltipLeave], Tick);
    assert events + [RoomLeave] + [TooltipLeave] == events + [RoomLeave, TooltipLeave];
    assert events + [RoomLeave, TooltipLeave] + [Tick] == events + [RoomLeave, TooltipLeave, Tick];
  }

  /** The id of a room's shape in the map markup: `'room-' + name`. */
  function ElementId(room: string): string {
    "room-" + room
  }

  /** The room named by a shape id. */
  function RoomOfElement(id: string): Option<string> {
    StripPrefix(id, "room-")
  }

  /** Distinct rooms have distinct shape ids, and the id names its room. */
  lemma ElementIdNamesRoom(room: string)
    ensures RoomOfElement(ElementId(room)) == Some(room)
  {
    StripPrefixOfConcat("room-", room);
  }

  /** `currentEl`: the current room's shape id. JavaScript's `if` treats an
      empty room name like no room at all. */
  function CurrentEl(m: Manager): (r: Option<string>)
    ensures r.Some? <==> m.currentRoomName.Some? && m.currentRoomName.value != ""
    ensures r.Some? ==> RoomOfElement(r.value) == m.currentRoomName
  {
    match m.currentRoomName
    case Some(room) =>
      ElementIdNamesRoom(room);
      if room != "" then Some(ElementId(room)) else None
    case None => None
  }

  /** `currentRoom`: the current room's record, or nothing when no room is
      current or the name is not a key of `rooms` (`undefined`). */
  function CurrentRoom(rooms: map<string, RoomCard.Room>, m: Manager): (r: Option<RoomCard.Room>)
    ensures r.Some? ==> CurrentEl(m).Some?
    ensures r.Some? ==> exists key :: key in rooms && CurrentEl(m) == Some(ElementId(key)) && rooms[key] == r.value
    ensures CurrentEl(m).Some? && m.currentRoomName.value in rooms ==> r.Some?
  {
    match m.currentRoomName
    case Some(room) =>
      if room != "" && room in rooms then Some(rooms[room]) else None
    case None => None
  }

  /** Where the tooltip is drawn while shown: placed against the hovered
      room's box with the component's fixed size. */
  function TooltipPosition(m: Manager): Option<Tooltip.Position> {
    if m.show && m.box.Some? then Some(Tooltip.Place(m.box.value, Tooltip.DefaultSize)) else None
  }

  /** In every reachable state a shown tooltip has a position, computed
      from the box of the room last entered. */
  lemma ShownTooltipIsPlaced(events: seq<Event>)
    ensures TooltipPosition(Run(events)).Some? <==> Run(events).show
  {
    RunConsistent(events);
  }
}

=== FILE: results.dfy ===
/** Failure-carrying datatypes shared by the rest of the model.
    `Option` stands for JavaScript's "value or false/undefined", `Result` for
    "value or a thrown error". Both work with Dafny's `:-` operator. */
module Results {

  datatype Option<+T> = None | Some(value: T) {

    predicate IsFailure() {
      None?
    }

    function PropagateFailure<U>(): Option<U>
      requires None?
    {
      None
    }

    function Extract(): T
      requires Some?
    {
      value
    }
  }

  datatype Result<+T, +E> = Ok(value: T) | Err(error: E) {

    predicate IsFailure() {
      Err?
    }

    function PropagateFailure<U>(): Result<U, E>
      requires Err?
    {
      Err(error)
    }

    function Extract(): T
      requires Ok?
    {
      value
    }
  }
}

=== FILE: room_card.dfy ===
/** The room card's derived values (room-card.js): the description line and
    whether it is shown, the thumbnail preview and whether it is shown, and
    the feature list, one `room-card-feature` per feature. */
module RoomCard {
  import opened Results
  import opened Text
  import opened Features

  datatype Thumbnail = Thumbnail(source: string)

  datatype Room = Room(
    building: string,
    name: string,
    nickname: Option<string>,
    details: string,
    thumbnails: seq<Thumbnail>,
    features: seq<Feature>)

  const DescriptionPrefix: string := "This room includes "

  /** `hasDescription`: the details text is not empty. */
  predicate HasDescription(room: Room) {
    |room.details| > 0
  }

  /** `description`: the details after a fixed lead-in. */
  function Description(room: Room): string {
    DescriptionPrefix + room.details
  }

  /** The details read back from a description line. */
  function DetailsOf(text: string): Option<string> {
    StripPrefix(text, DescriptionPrefix)
  }

  /** The description block as the template shows it: present exactly when
      there are details, and then carrying exactly those details. */
  function DescriptionView(room: Room): (r: Option<string>)
    ensures r.Some? <==> |room.details| > 0
    ensures r.Some? ==> DetailsOf(r.value) == Some(room.details)
  {
    StripPrefixOfConcat(DescriptionPrefix, room.details);
    if HasDescription(room) then Some(Description(room)) else None
  }

  /** `hasThumbnails`. */
  predicate HasThumbnails(thumbnails: seq<Thumbnail>) {
    |thumbnails| > 0
  }

  /** The thumbnail block: absent without images; otherwise the first
      image's source (`thumbnailPreview` is read only under `v-if`, so the
      empty list never reaches `thumbnails[0]`). */
  function ThumbnailView(thumbnails: seq<Thumbnail>): (r: Option<string>)
    ensures r.Some? <==> |thumbnails| > 0
    ensures r.Some? ==> exists t :: t in thumbnails && t.source == r.value
  {
    if HasThumbnails(thumbnails) then Some(thumbnails[0].source) else None
  }

  /** The preview is the first image: images added after it never change it,
      and an image put in front of the list becomes the preview. */
  lemma PreviewIsFirstImage(thumbnails: seq<Thumbnail>, more: seq<Thumbnail>, t: Thumbnail)
    ensures |thumbnails| > 0 ==> ThumbnailView(thumbnails + more) == ThumbnailView(thumbnails)
    ensures ThumbnailView([t] + thumbnails) == Some(t.source)
  {
    if |thumbnails| > 0 {
      assert (thumbnails + more)[0] == thumbnails[0];
    }
  }

  /** `room-card-feature-list`: one `room-card-feature` per feature, in
      order; each renders on its own, so one failing feature does not
      affect the others. */
  method RenderFeatureList(features: seq<Feature>) returns (views: seq<Result<Option<Display>, FeatureError>>)
    ensures |views| == |features|
    ensures forall i :: 0 <= i < |features| ==> views[i] == FeatureView(features[i])
  {
    views := [];
    var k := 0;
    while k < |features|
      invariant 0 <= k <= |features|
      invariant |views| == k
      invariant forall i :: 0 <= i < k ==> views[i] == FeatureView(features[i])
    {
      views := views + [FeatureView(features[k])];
      k := k + 1;
    }
  }
}

=== FILE: text.dfy ===
/** Prefix and suffix tests on strings, and removal of a known prefix: the
    inverse of the `"literal " + value` concatenations the components use. */
module Text {
  import opened Results

  predicate HasPrefix(s: string, p: string) {
    |p| <= |s| && s[..|p|] == p
  }

  predicate HasSuffix(s: string, p: string) {
    |p| <= |s| && s[|s| - |p|..] == p
  }

  /** `s` without its leading `p`, or None when `s` does not start with `p`. */
  function StripPrefix(s: string, p: string): (r: Option<string>)
    ensures r.Some? <==> HasPrefix(s, p)
    ensures r.Some? ==> p + r.value == s
  {
    if HasPrefix(s, p) then
      assert s == s[..|p|] + s[|p|..];
      Some(s[|p|..])
    else None
  }

  /** Removing the prefix that was just added gives back the original text. */
  lemma StripPrefixOfConcat(p: string, t: string)
    ensures StripPrefix(p + t, p) == Some(t)
  {
    assert (p + t)[..|p|] == p;
    assert (p + t)[|p|..] == t;
  }

  lemma SuffixOfConcat(s: string, p: string)
    ensures HasSuffix(s + p, p)
  {
    assert (s + p)[|s + p| - |p|..] == p;
  }
}

=== FILE: tooltip.dfy ===
/** The `tooltip` component's placement of its own top-left corner next to
    the hovered room shape (room-card.js, computed `left`, `top` and
    `styleObject`). Coordinates are screen pixels, modelled as `real`
    rather than as double-precision floats. */
module Tooltip {

  /** The part of a `getBoundingClientRect()` result the placement reads. */
  datatype BoundingBox = BoundingBox(left: real, top: real, width: real, height: real)

  /** The tooltip panel's size as the component's data holds it. */
  datatype Size = Size(width: real, height: real)

  /** The tooltip's top-left corner, written out as `left`/`top` in px. */
  datatype Position = Position(left: real, top: real)

  /** The component's data: 650 wide, 325 high. */
  const DefaultSize: Size := Size(650.0, 325.0)

  /** Room kept free above the tooltip when it opens upward. */
  const Buffer: real := 50.0

  /** The horizontal nudge: an eighth of the tooltip's width. */
  function Shift(size: Size): real {
    size.width / 8.0
  }

  /** The box lies within one nudge of the left edge, so the tooltip moves right. */
  predicate OpensRight(el: BoundingBox, size: Size) {
    el.left <= Shift(size)
  }

  /** There is not room for the tooltip plus the buffer above the box, so it
      opens below the box. */
  predicate OpensDown(el: BoundingBox, size: Size) {
    el.top <= size.height + Buffer
  }

  /** Horizontal coordinate: the box's left edge moved by exactly one nudge,
      rightward near the left edge and leftward otherwise. */
  function Left(el: BoundingBox, size: Size): (x: real)
    ensures x - el.left == Shift(size) || el.left - x == Shift(size)
    ensures OpensRight(el, size) ==> x == el.left + Shift(size)
    ensures !OpensRight(el, size) ==> x == el.left - Shift(size) && x > 0.0
  {
    var shift := size.width / 8.0;
    if el.left <= shift then el.left + shift else el.left - shift
  }

  /** Vertical coordinate: directly below the box when the room above is
      short, otherwise so that the tooltip's bottom edge meets the box's top. */
  function Top(el: BoundingBox, size: Size): (y: real)
    ensures OpensDown(el, size) ==> y == el.top + el.height
    ensures !OpensDown(el, size) ==> y + size.height == el.top && y > Buffer
  {
    var buffer := 50.0;
    if el.top <= size.height + buffer then el.top + el.height else el.top - size.height
  }

  /** The style object's two coordinates. */
  function Place(el: BoundingBox, size: Size): Position {
    Position(Left(el, size), Top(el, size))
  }

  /** A box that starts inside the viewport (non-negative left and top, as
      the layout engine reports for a visible shape) never pushes the
      tooltip past the left or the top edge. */
  lemma PlacementStaysOnScreen(el: BoundingBox, size: Size)
    requires el.left >= 0.0 && el.top >= 0.0 && el.height >= 0.0
    requires size.width >= 0.0
    ensures Place(el, size).left >= 0.0
    ensures Place(el, size).top >= 0.0
  {
  }

  /** The tooltip never covers the hovered box vertically: it sits wholly
      below it or wholly above it. */
  lemma PlacementClearsBox(el: BoundingBox, size: Size)
    ensures var y := Place(el, size).top;
            y >= el.top + el.height || y + size.height <= el.top
  {
  }

  /** There is no clamping at the right edge: moving a box that already
      opens leftward further right moves the tooltip by the same amount,
      without bound. */
  lemma NoRightClamp(el: BoundingBox, size: Size, d: real)
    requires !OpensRight(el, size) && d >= 0.0
    ensures Left(el.(left := el.left + d), size) == Left(el, size) + d
  {
  }

  /** Nor at the bottom edge: a box that opens downward moved further down
      (while still opening downward) moves the tooltip by the same amount. */
  lemma NoBottomClamp(el: BoundingBox, size: Size, d: real)
    requires OpensDown(el.(top := el.top + d), size) && d >= 0.0
    ensures Top(el.(top := el.top + d), size) == Top(el, size) + d
  {
  }

  /** Both comparisons are inclusive: a box exactly one nudge from the left
      edge opens rightward, and one exactly `height + 50` from the top opens
      downward. */
  lemma BoundaryCases()
    ensures Left(BoundingBox(50.0, 500.0, 0.0, 0.0), Size(400.0, 0.0)) == 100.0
    ensures Top(BoundingBox(500.0, 150.0, 0.0, 10.0), Size(0.0, 100.0)) == 160.0
    ensures Place(BoundingBox(81.25, 375.0, 20.0, 30.0), DefaultSize) == Position(162.5, 405.0)
  {
  }
}
